=== FILE: README.md ===
# Image metadata extractor — a Dafny model of its decision logic

The extractor (`meta.py`) takes an image path and builds one ordered
dictionary of metadata from four sources: filesystem attributes, the image
library's header fields, the EXIF tags (with GPS coordinates converted to
decimal degrees) and a generic binary-container parser's plaintext report.
It then writes the dictionary as `key: value` lines. This project models the
pure logic between those library calls and proves what it guarantees:

- `OrderedMap` (ordered_map.dfy): a Python `dict` with string keys, as a
  sequence of entries. `Assign` is `d[k] = v`: a present key is overwritten
  in place and a new key is appended. `Update` is `d.update(n)`. `LastValue`
  is an independent reading of "the last assignment wins".
- `Text` (text.dfy): substring search (`in`, `find`), ASCII lower-casing,
  `endswith` and decimal rendering of integers.
- `ReportLine` (lines.dfy): splitting a line at its first `": "`, and
  rendering a `key: value` line.
- `Report` (report.dfy): the text of the report, and reading that text back.
- `Gps` (gps.dfy): `convert_gps` over exact rationals.
- `Exif` (exif.dfy): post-processing of the EXIF tag dictionary.
- `Hidden` (hidden.dfy): flattening the generic parser's report.
- `Header` (header.dfy): the image-library stage and its `"PIL Error"` fallback.
- `Pipeline` (pipeline.dfy): `extract_image_metadata`. It runs the stages in
  order and skips the EXIF stage when the path ends in `.heic`, ignoring case.

The libraries become inputs. `Header.ReadOutcome` stands for what the image
library exposes, or how far the stage got before it raised.
`seq<Entry<Exif.Tag>>` is the EXIF library's tag dictionary. `Sources.tags`
is `Err(message)` when opening the file or reading its tags raises.
`Hidden.ScanOutcome` says whether a parser or extractor was found, what
lines were exported, or what exception was raised after which lines.
`Pipeline.FileStat` holds the base name, size and rendered timestamps.

How the stages fail:
- When reading the header raises, `"PIL Error"` holds the exception's text.
  The fields assigned before the exception stay in the record.
- When the hidden scan raises, the entries stored so far are kept and
  `"Hidden Metadata Error"` holds the exception's text.
- Opening the file for the EXIF library (meta.py:45-46) is not inside a
  `try`. When it or reading the tags raises on a non-`.heic` path, the
  exception propagates, and `Pipeline.Extract` returns `Err(ExifUnreadable(..))`.
  A `.heic` path never reaches that call.
- A GPS conversion error is not caught. It propagates out of
  `extract_image_metadata`, so `Pipeline.Extract` returns `Err(ExifRaised(..))`.

## Model

| member | source | states |
|---|---|---|
| OrderedMap.Get | meta.py:51-54 | `tags.get(k)` finds a value exactly when `k` is a key of the dictionary |
| OrderedMap.GetAt | meta.py:51-54 | in a dictionary with unique keys, `get` of an entry's key gives that entry's value |
| OrderedMap.Assign | meta.py:92 | `d[k] = v`: afterwards `k` maps to `v` and every other key keeps its value; the key set gains `k`; an existing key keeps its position and a new one is appended; unique keys are preserved |
| OrderedMap.Update | meta.py:36 | `d.update(n)`: the keys are the union, the entries of `d` keep their positions at the front, unique keys are preserved |
| OrderedMap.LastValue | meta.py:90-92 | the independent "last entry for the key, scanning from the end" reading has a value exactly for the keys present |
| OrderedMap.GetUpdate | meta.py:90-92 | after `d.update(n)` a key of `n` holds the value of its last entry in `n`, and any other key holds its value in `d` |
| OrderedMap.GetUpdateUnique | meta.py:38 | updating with a dictionary: its keys take its values, all other keys keep theirs |
| OrderedMap.UpdateFresh | meta.py:48-49 | assigning entries whose keys are all new appends them in order |
| OrderedMap.LastValueAt | meta.py:90-92 | an entry not followed by another entry with its key is the one whose value is kept |
| Text.IndexOf | meta.py:91 | `": " in item` holds exactly when a position is found, and the position found is the first occurrence |
| Text.Lower | meta.py:35 | `lower()` keeps the length, turns each upper-case ASCII letter into its lower-case letter, keeps every other character, and leaves no upper-case letter |
| Text.Decimal | meta.py:28 | `str(n)` is a non-empty digit string without a leading zero (unless `n` is 0) |
| Text.DecimalRoundTrip | meta.py:28 | reading the digits of `str(n)` back gives `n` |
| ReportLine.SplitLine | meta.py:91 | a line with `": "` splits into a key without `": "` and a value such that `key + ": " + value` is the line; a line without one gives `(line, "Unknown")` |
| ReportLine.SplitLines | meta.py:90-91 | each exported line becomes one entry, in order: a line with `": "` is that entry's `key: value` text with a key free of `": "`; a line without one is the key, with "Unknown" |
| ReportLine.SplitRenderLine | meta.py:91 | splitting a rendered `key: value` line gives back `(key, value)` whenever the key contains no `": "` |
| ReportLine.RenderLine | meta.py:103 | a report line is the key, then `": "` starting right after the key, then the value |
| Report.ReportLines | meta.py:102-103 | when no key or value contains a line break, the report has one line per entry, `key: value`, in the record's order |
| Report.Render | meta.py:102-103 | an empty record writes nothing; otherwise the text starts with the first key and ends with a line break |
| Report.ReportRoundTrip | meta.py:101-103 | reading the report text back gives the record, when keys contain no `": "` and nothing contains a line break |
| Gps.Degrees | meta.py:68-72 | the magnitude times 3600 is the total number of arc-seconds: d·3600 + m·60 + s |
| Gps.ConvertGps | meta.py:74-77 | the result is the magnitude, negated exactly when the reference is "S" or "W" |
| Gps.TryConvertGps | meta.py:71 | the conversion succeeds exactly for three components with non-zero denominators |
| Gps.SignSymmetry | meta.py:75-76 | south gives the negation of north, west the negation of east |
| Gps.SignOfResult | meta.py:72-76 | with non-negative components, N/E results are ≥ 0 and S/W results are ≤ 0 |
| Gps.OtherReferencesKeepSign | meta.py:75 | any reference other than exactly "S" or "W" converts like "N" |
| Gps.ExampleCoordinate | meta.py:66-77 | 35°30'0" is 35.5 north and −35.5 south |
| Exif.Printable | meta.py:48-49 | stringifying keeps each tag's key and position and maps each key to its tag's printable text |
| Exif.StringifyLoop | meta.py:48-49 | the loop `metadata[tag] = str(value)` builds exactly the stringified tags, in order |
| Exif.ExifStage | meta.py:56-58 | the stage raises exactly when all four GPS tags are present and a coordinate tag is malformed |
| Exif.GpsStep | meta.py:51-59 | the GPS step raises exactly when all four GPS tags are present and a coordinate tag is malformed; otherwise it assigns the coordinates text when all four are present and changes nothing when one is missing |
| Exif.GpsStepContents | meta.py:48-59 | before the defaults, the record holds the stringified tags plus the coordinates when all four GPS tags are present |
| Exif.WithDefaults | meta.py:61-62 | "Camera Model" and "Software" hold the "Image Model"/"Image Software" tag texts or "Unknown"; when neither key is in the record yet, the two entries are appended in that order |
| Exif.WithDefaultsContents | meta.py:61-62 | adding the defaults sets "Camera Model" and "Software" and changes nothing else |
| Exif.ExifStageKeys | meta.py:48-62 | the keys are the tags' keys at their original positions plus "Camera Model", "Software", and "GPS Coordinates" exactly when all four GPS tags are present; they stay unique |
| Exif.ExifStageShape | meta.py:48-62 | when no tag has a synthetic key, the record is the stringified tags in order, then "GPS Coordinates" when all four GPS tags are present, then "Camera Model", then "Software" |
| Exif.ExifStageTags | meta.py:48-49 | every key other than the three synthetic ones holds its tag's printable text, or is absent when there is no such tag |
| Exif.ExifStageCoordinates | meta.py:51-59 | "GPS Coordinates" holds `f"{lat}, {lon}"` of the two conversions when all four GPS tags are present; otherwise the stage adds nothing under it |
| Exif.CoordinatesIffAllGpsTags | meta.py:56-59 | when no tag is itself called "GPS Coordinates", the entry is present exactly when all four GPS tags are |
| Exif.ExifStageDefaults | meta.py:61-62 | "Camera Model" and "Software" are always present: the "Image Model"/"Image Software" tag texts or "Unknown" |
| Exif.NoExifData | meta.py:43-64 | without tags the stage gives exactly the two "Unknown" defaults |
| Hidden.StoreLines | meta.py:90-92 | the stored lines have unique keys, the keys of the split lines, and each key holds the value of the last line that produced it |
| Hidden.HiddenStage | meta.py:79-97 | no parser gives exactly `{"Hidden Metadata": "Unable to parse"}`; no extractor gives `{}`; exported lines give the keys of the split lines; an exception adds "Hidden Metadata Error" to the keys stored so far; keys stay unique |
| Hidden.HiddenErrorKeepsEntries | meta.py:94-95 | on an exception the message is stored under "Hidden Metadata Error" and every other stored key keeps its last line's value |
| Hidden.HiddenLineContribution | meta.py:91-92 | a line whose key no later line repeats survives: split at its first `": "`, or kept whole with "Unknown" |
| Hidden.HiddenExample | meta.py:91-92 | `["Key: Value", "JustAWord"]` gives `{"Key": "Value", "JustAWord": "Unknown"}` |
| Header.BitDepthText | meta.py:29 | "Bit Depth" is "Unknown" exactly when the image has no `bits` attribute |
| Header.IccText | meta.py:31 | "ICC Profile" is "Present" exactly for a non-empty profile and "None" otherwise |
| Header.HeaderFields | meta.py:26-31 | the six fields are assigned in the order Format, Mode, Size, Bit Depth, Compression, ICC Profile |
| Header.Stored | meta.py:24-33 | a successful read stores all six fields; a failure stores the fields assigned before the exception, with their values, in assignment order |
| Header.HeaderStage | meta.py:24-33 | the stage keeps the earlier entries at their positions and keeps keys unique |
| Header.HeaderStageAppends | meta.py:24-33 | on a record holding none of the stage's keys, the stage appends the stored fields in assignment order, then "PIL Error" with the message when reading failed |
| Header.StoredKeys | meta.py:26-31 | the stored fields have distinct keys, in the fixed order, and none is "PIL Error" |
| Header.HeaderStageValues | meta.py:24-33 | stored fields hold their values; "PIL Error" holds the message exactly when the stage failed; every other key keeps its value |
| Header.ReadStoresAllFields | meta.py:26-31 | a successful read adds exactly the six field keys |
| Header.SizeText | meta.py:28 | the size text is digits, one `x`, then digits; the digits before the `x` read back as the width and those after it as the height |
| Header.SizeTextInjective | meta.py:28 | the `"{width}x{height}"` text determines both dimensions |
| Pipeline.Seed | meta.py:17-22 | the record starts with File Name, File Size (bytes), Creation Time, Modification Time, in that order |
| Pipeline.ExifContribution | meta.py:35-36 | a `.heic` path contributes nothing, whether or not its tags can be read; otherwise it raises when the tags cannot be read (naming that message) or when the GPS conversion raises, and else it is exactly the EXIF stage's record |
| Pipeline.IsHeic | meta.py:35 | the path is a `.heic` file exactly when its last five characters, lower-cased, are ".heic" |
| Pipeline.AfterHeader | meta.py:17-33 | after the header stage the four filesystem keys are still first, and keys are unique |
| Pipeline.AfterHeaderAppends | meta.py:17-33 | the header stage appends to the seed record: the stored fields in assignment order, then "PIL Error" with the message when reading failed |
| Pipeline.Extract | meta.py:15-39 | extraction succeeds exactly when the file can be examined and the EXIF stage is skipped, or reads the tags and does not raise; the failure names the cause (stat, unreadable tags, GPS conversion); a record has unique keys and starts with the four filesystem keys |
| Pipeline.ExtractOrder | meta.py:17-38 | when the header, EXIF and hidden stages write disjoint keys, the record is the header stage's record, then the EXIF entries, then the hidden entries, each in its own order |
| Pipeline.FileKeysPresent | meta.py:17-22 | the four filesystem keys are always in the result |
| Pipeline.HeicSkipsExif | meta.py:35-36 | for a `.heic` path the tags, and whether they can be read, play no part: extraction succeeds whenever the file can be examined, and the record is the header stage followed by the hidden stage |
| Pipeline.HiddenStageWins | meta.py:38 | any key the hidden stage writes holds the hidden stage's value |
| Pipeline.EarlierValuesKept | meta.py:36-38 | a key the hidden stage does not write holds the EXIF stage's value if that stage wrote it, else its value after the header stage |
| Pipeline.HeicIgnoresCase | meta.py:35 | the `.heic` test is unaffected by lower-casing, and accepts ".heic", ".HEIC" and ".HeIc" |

## Left out

- The tkinter window, file dialog and about box (meta.py:107-144). This is user-interface plumbing.
- Writing the file and `os.startfile` (meta.py:101-105). Only the report's text is modelled (`Report.Render`).
- `os.path.basename`, `os.path.getsize`, `os.path.getctime`/`getmtime` and `time.ctime` (meta.py:18-21). These depend on the platform and the filesystem. Their results are the `FileStat` input. A failure is `stat == None`.
- `Image.open`, `exifread.process_file`, `hachoir.parser.createParser`, `extractMetadata` and `exportPlaintext`. These are library calls. Their results are the inputs `ReadOutcome`, the tag dictionary and `ScanOutcome`. A failure of `open`/`process_file` is modelled only as an exception with its message, not by what causes it.
- Floating point: the GPS arithmetic is exact over `real`. `float(v.num)` overflow and rounding are not modelled. The text of a float is the parameter `showFloat`.
- Gps.ConvertGps: the `isinstance(values, list)` test is not modelled. A tag and a list both reach the conversion as the same component sequence.
- Gps.ConvertGps: the components are taken to be EXIF rationals. A coordinate tag stored with another field type (integers or text) has components without `num`/`den`; meta.py:71 then raises `AttributeError`, which propagates. `Exif.GpsRaises`, `Exif.ExifStage` and `Gps.TryConvertGps` state when the conversion raises only for rational components.
- Gps.ConvertGps: the sign of a zero result is lost. Over exact reals, a zero magnitude with "S" or "W" equals the "N" result. Python writes that float as `-0.0`, so the "GPS Coordinates" text of such a coordinate is not modelled exactly.
- Exif.HasGps: "present" stands for the truthiness test at meta.py:56. The library's tag objects define no truth value of their own, so a present tag is truthy.
- Exif.ExifStageDefaults: "Camera Model"/"Software" store the tag object itself. It becomes text only when the report is written. The model stores that text (`printable`) at once.
- Header.HeaderFields: `img.mode` and the compression value are taken as text. A missing `img.format` is `None` and is written as "None".
- Pipeline.IsHeic: `str.lower()` is Unicode-aware, but the model lower-cases ASCII only. This gives the same answer for the suffix ".heic": no other character lower-cases to a string ending in one of those five characters.
- Hidden.ScanOutcome: `Raised` allows an exception after any prefix of exported lines. An exporter that returns a complete list can only fail before the first line.

=== FILE: exif.dfy ===
/** EXIF post-processing: the tag dictionary read by the EXIF library
    becomes string entries plus the synthetic "GPS Coordinates",
    "Camera Model" and "Software" entries. */
module Exif {
  import opened Wrappers
  import opened OrderedMap
  import opened Text
  import opened Gps

  /** One tag as the EXIF library returns it: its printable text (what `str`
      gives) and its component values (used for the GPS tags). */
  datatype Tag = Tag(printable: string, values: seq<Rational>)

  const LatitudeTag := "GPS GPSLatitude"
  const LongitudeTag := "GPS GPSLongitude"
  const LatitudeRefTag := "GPS GPSLatitudeRef"
  const LongitudeRefTag := "GPS GPSLongitudeRef"
  const ModelTag := "Image Model"
  const SoftwareTag := "Image Software"

  const CoordinatesKey := "GPS Coordinates"
  const CameraModelKey := "Camera Model"
  const SoftwareKey := "Software"

  /** The keys this stage writes besides the tags themselves. */
  const SyntheticKeys := {CoordinatesKey, CameraModelKey, SoftwareKey}

  /** The exception `convert_gps` raises, named by the tag being converted. */
  datatype ExifFailure = MalformedGps(tag: string)

  /** The printable text of a tag that may be missing. */
  function PrintableOf(t: Option<Tag>): (r: Option<string>)
    ensures r.Some? <==> t.Some?
  {
    match t
    case Some(tag) => Some(tag.printable)
    case None => None
  }

  /** All four GPS tags are present (a present tag object is always truthy). */
  predicate HasGps(tags: seq<Entry<Tag>>)
  {
    && LatitudeTag in Keys(tags)
    && LongitudeTag in Keys(tags)
    && LatitudeRefTag in Keys(tags)
    && LongitudeRefTag in Keys(tags)
  }

  /** A present tag's components. */
  function ValuesOf(tags: seq<Entry<Tag>>, key: string): seq<Rational>
    requires key in Keys(tags)
  {
    Get(tags, key).value.values
  }

  /** A tag's printable text, or `default` when the tag is absent
      (`tags.get(key, default)` as rendered). */
  function TextOr(tags: seq<Entry<Tag>>, key: string, default: string): string
  {
    match Get(tags, key)
    case Some(t) => t.printable
    case None => default
  }

  /** `f"{latitude}, {longitude}"`; how a float is written is left to
      `showFloat`. */
  function CoordinatesText(lat: real, lon: real, showFloat: real -> string): string
  {
    showFloat(lat) + ", " + showFloat(lon)
  }

  /** The tags stringified: `(tag, str(value))` for each tag, in order. */
  function Printable(tags: seq<Entry<Tag>>): (r: seq<Entry<string>>)
    ensures |r| == |tags|
    ensures forall i :: 0 <= i < |tags| ==> r[i].key == tags[i].key
    ensures Keys(r) == Keys(tags)
    ensures forall k :: Get(r, k) == PrintableOf(Get(tags, k))
    ensures UniqueKeys(tags) ==> UniqueKeys(r)
  {
    if |tags| == 0 then []
    else [Entry(tags[0].key, tags[0].value.printable)] + Printable(tags[1..])
  }

  /** The stringifying loop of the stage builds exactly the stringified
      tags, since a dictionary has no repeated key. */
  lemma StringifyLoop(tags: seq<Entry<Tag>>)
    requires UniqueKeys(tags)
    ensures Update([], Printable(tags)) == Printable(tags)
  {
    UpdateFresh([], Printable(tags));
  }

  /** With all four GPS tags present, the conversion raises unless both
      coordinate tags are well formed. */
  predicate GpsRaises(tags: seq<Entry<Tag>>)
  {
    HasGps(tags) &&
    !(WellFormed(ValuesOf(tags, LatitudeTag)) && WellFormed(ValuesOf(tags, LongitudeTag)))
  }

  /** The coordinates text when all four GPS tags are present and well formed. */
  function GpsText(tags: seq<Entry<Tag>>, showFloat: real -> string): string
    requires HasGps(tags) && !GpsRaises(tags)
  {
    CoordinatesText(
      ConvertGps(ValuesOf(tags, LatitudeTag), TextOr(tags, LatitudeRefTag, "")),
      ConvertGps(ValuesOf(tags, LongitudeTag), TextOr(tags, LongitudeRefTag, "")),
      showFloat)
  }

  /** The GPS step: add the coordinates when all four tags are present,
      or raise while converting them. */
  function GpsStep(tags: seq<Entry<Tag>>, m: seq<Entry<string>>, showFloat: real -> string): (r: Result<seq<Entry<string>>, ExifFailure>)
    requires UniqueKeys(tags)
    ensures r.Err? <==> GpsRaises(tags)
    ensures r.Ok? && HasGps(tags) ==> r.value == Assign(m, CoordinatesKey, GpsText(tags, showFloat))
    ensures r.Ok? && !HasGps(tags) ==> r.value == m
  {
    if HasGps(tags) then
      match TryConvertGps(ValuesOf(tags, LatitudeTag), TextOr(tags, LatitudeRefTag, ""))
      case None => Err(MalformedGps(LatitudeTag))
      case Some(lat) =>
        match TryConvertGps(ValuesOf(tags, LongitudeTag), TextOr(tags, LongitudeRefTag, ""))
        case None => Err(MalformedGps(LongitudeTag))
        case Some(lon) => Ok(Assign(m, CoordinatesKey, CoordinatesText(lat, lon, showFloat)))
    else Ok(m)
  }

  /** The two entries that always close the stage. */
  function WithDefaults(tags: seq<Entry<Tag>>, m: seq<Entry<string>>): (r: seq<Entry<string>>)
    ensures Get(r, CameraModelKey) == Some(TextOr(tags, ModelTag, UnknownText))
    ensures Get(r, SoftwareKey) == Some(TextOr(tags, SoftwareTag, UnknownText))
    ensures CameraModelKey !in Keys(m) && SoftwareKey !in Keys(m) ==>
      r == m + [Entry(CameraModelKey, TextOr(tags, ModelTag, UnknownText)),
                Entry(SoftwareKey, TextOr(tags, SoftwareTag, UnknownText))]
  {
    var withModel := Assign(m, CameraModelKey, TextOr(tags, ModelTag, UnknownText));
    Assign(withModel, SoftwareKey, TextOr(tags, SoftwareTag, UnknownText))
  }

  /** `extract_exif_metadata` after the tags have been read. */
  function ExifStage(tags: seq<Entry<Tag>>, showFloat: real -> string): (r: Result<seq<Entry<string>>, ExifFailure>)
    requires UniqueKeys(tags)
    ensures r.Err? <==> GpsRaises(tags)
  {
    match GpsStep(tags, Update([], Printable(tags)), showFloat)
    case Err(e) => Err(e)
    case Ok(m) => Ok(WithDefaults(tags, m))
  }

  /** A stage that does not raise is the GPS step followed by the defaults. */
  lemma ExifStageParts(tags: seq<Entry<Tag>>, showFloat: real -> string)
    requires UniqueKeys(tags)
    requires !GpsRaises(tags)
    ensures GpsStep(tags, Update([], Printable(tags)), showFloat).Ok?
    ensures ExifStage(tags, showFloat) ==
      Ok(WithDefaults(tags, GpsStep(tags, Update([], Printable(tags)), showFloat).value))
  {
  }

  /** The entries of a successful stage before the two defaults are added:
      the stringified tags, plus the coordinates when all four GPS tags are
      present. */
  lemma GpsStepContents(tags: seq<Entry<Tag>>, showFloat: real -> string)
    requires UniqueKeys(tags)
    requires !GpsRaises(tags)
    ensures var m := GpsStep(tags, Update([], Printable(tags)), showFloat).value;
      && UniqueKeys(m)
      && Keys(m) == Keys(tags) + (if HasGps(tags) then {CoordinatesKey} else {})
      && |m| >= |tags|
      && (forall i :: 0 <= i < |tags| ==> m[i].key == tags[i].key)
      && (forall k :: k != CoordinatesKey ==> Get(m, k) == PrintableOf(Get(tags, k)))
      && (HasGps(tags) ==> Get(m, CoordinatesKey) == Some(GpsText(tags, showFloat)))
      && (!HasGps(tags) ==> Get(m, CoordinatesKey) == PrintableOf(Get(tags, CoordinatesKey)))
  {
    StringifyLoop(tags);
  }

  /** Adding the defaults keeps every other entry and its position. */
  lemma WithDefaultsContents(tags: seq<Entry<Tag>>, m: seq<Entry<string>>)
    ensures var r := WithDefaults(tags, m);
      && (UniqueKeys(m) ==> UniqueKeys(r))
      && Keys(r) == Keys(m) + {CameraModelKey, SoftwareKey}
      && |r| >= |m|
      && (forall i :: 0 <= i < |m| ==> r[i].key == m[i].key)
      && (forall k :: k != CameraModelKey && k != SoftwareKey ==> Get(r, k) == Get(m, k))
      && Get(r, CameraModelKey) == Some(TextOr(tags, ModelTag, UnknownText))
      && Get(r, SoftwareKey) == Some(TextOr(tags, SoftwareTag, UnknownText))
  {
  }

  /** A successful EXIF stage keeps unique keys, and its keys are the tags'
      keys, at their original positions, plus the synthetic ones. */
  lemma ExifStageKeys(tags: seq<Entry<Tag>>, showFloat: real -> string)
    requires UniqueKeys(tags)
    requires !GpsRaises(tags)
    ensures ExifStage(tags, showFloat).Ok?
    ensures UniqueKeys(ExifStage(tags, showFloat).value)
    ensures Keys(ExifStage(tags, showFloat).value) ==
      Keys(tags) + {CameraModelKey, SoftwareKey} + (if HasGps(tags) then {CoordinatesKey} else {})
    ensures |ExifStage(tags, showFloat).value| >= |tags|
    ensures forall i :: 0 <= i < |tags| ==> ExifStage(tags, showFloat).value[i].key == tags[i].key
  {
    ExifStageKeySet(tags, showFloat);
    ExifStagePositions(tags, showFloat);
  }

  /** The key set of a successful stage, and its uniqueness. */
  lemma ExifStageKeySet(tags: seq<Entry<Tag>>, showFloat: real -> string)
    requires UniqueKeys(tags)
    requires !GpsRaises(tags)
    ensures ExifStage(tags, showFloat).Ok?
    ensures UniqueKeys(ExifStage(tags, showFloat).value)
    ensures Keys(ExifStage(tags, showFloat).value) ==
      Keys(tags) + {CameraModelKey, SoftwareKey} + (if HasGps(tags) then {CoordinatesKey} else {})
  {
    ExifStageParts(tags, showFloat);
    var m := GpsStep(tags, Update([], Printable(tags)), showFloat).value;
    GpsStepKeys(tags, showFloat);
    DefaultsKeys(tags, m);
  }

  /** The tags keep their positions at the front of a successful stage. */
  lemma ExifStagePositions(tags: seq<Entry<Tag>>, showFloat: real -> string)
    requires UniqueKeys(tags)
    requires !GpsRaises(tags)
    ensures ExifStage(tags, showFloat).Ok?
    ensures |ExifStage(tags, showFloat).value| >= |tags|
    ensures forall i :: 0 <= i < |tags| ==> ExifStage(tags, showFloat).value[i].key == tags[i].key
  {
    ExifStageParts(tags, showFloat);
    var m := GpsStep(tags, Update([], Printable(tags)), showFloat).value;
    GpsStepKeys(tags, showFloat);
    DefaultsKeys(tags, m);
  }

  /** The keys after the GPS step: the tags', at their positions, plus the
      coordinates when all four GPS tags are present. */
  lemma GpsStepKeys(tags: seq<Entry<Tag>>, showFloat: real -> string)
    requires UniqueKeys(tags)
    requires !GpsRaises(tags)
    ensures var m := GpsStep(tags, Update([], Printable(tags)), showFloat).value;
      && UniqueKeys(m)
      && Keys(m) == Keys(tags) + (if HasGps(tags) then {CoordinatesKey} else {})
      && |m| >= |tags|
      && (forall i :: 0 <= i < |tags| ==> m[i].key == tags[i].key)
  {
    GpsStepContents(tags, showFloat);
  }

  /** The keys after the defaults: the earlier ones, at their positions,
      plus "Camera Model" and "Software". */
  lemma DefaultsKeys(tags: seq<Entry<Tag>>, m: seq<Entry<string>>)
    requires UniqueKeys(m)
    ensures var r := WithDefaults(tags, m);
      && UniqueKeys(r)
      && Keys(r) == Keys(m) + {CameraModelKey, SoftwareKey}
      && |r| >= |m|
      && (forall i :: 0 <= i < |m| ==> r[i].key == m[i].key)
  {
    WithDefaultsContents(tags, m);
  }

  /** When no tag carries a synthetic key, the stage's record is the
      stringified tags in their order, then "GPS Coordinates" when all four
      GPS tags are present, then "Camera Model" and "Software". */
  lemma ExifStageShape(tags: seq<Entry<Tag>>, showFloat: real -> string)
    requires UniqueKeys(tags)
    requires !GpsRaises(tags)
    requires Keys(tags) !! SyntheticKeys
    ensures ExifStage(tags, showFloat) == Ok(
      Printable(tags)
      + (if HasGps(tags) then [Entry(CoordinatesKey, GpsText(tags, showFloat))] else [])
      + [Entry(CameraModelKey, TextOr(tags, ModelTag, UnknownText)),
         Entry(SoftwareKey, TextOr(tags, SoftwareTag, UnknownText))])
  {
    var p := Printable(tags);
    StringifyLoop(tags);
    var coords: seq<Entry<string>> := if HasGps(tags) then [Entry(CoordinatesKey, GpsText(tags, showFloat))] else [];
    var m := GpsStep(tags, p, showFloat).value;
    assert m == p + coords;
    KeysAppend(p, coords);
    assert CameraModelKey !in Keys(m) && SoftwareKey !in Keys(m);
  }

  /** Every tag other than the three synthetic keys appears with its
      printable text, and nothing else appears under such a key. */
  lemma ExifStageTags(tags: seq<Entry<Tag>>, showFloat: real -> string, k: string)
    requires UniqueKeys(tags)
    requires !GpsRaises(tags)
    requires k !in SyntheticKeys
    ensures ExifStage(tags, showFloat).Ok?
    ensures Get(ExifStage(tags, showFloat).value, k) == PrintableOf(Get(tags, k))
  {
    var m := GpsStep(tags, Update([], Printable(tags)), showFloat).value;
    GpsStepContents(tags, showFloat);
    WithDefaultsContents(tags, m);
  }

  /** "GPS Coordinates" holds the two converted coordinates when all four
      GPS tags are present; otherwise the stage adds nothing under it. */
  lemma ExifStageCoordinates(tags: seq<Entry<Tag>>, showFloat: real -> string)
    requires UniqueKeys(tags)
    requires !GpsRaises(tags)
    ensures ExifStage(tags, showFloat).Ok?
    ensures HasGps(tags) ==> Get(ExifStage(tags, showFloat).value, CoordinatesKey) == Some(GpsText(tags, showFloat))
    ensures !HasGps(tags) ==> Get(ExifStage(tags, showFloat).value, CoordinatesKey) == PrintableOf(Get(tags, CoordinatesKey))
  {
    var m := GpsStep(tags, Update([], Printable(tags)), showFloat).value;
    var r := ExifStage(tags, showFloat).value;
    ExifStageParts(tags, showFloat);
    assert Get(r, CoordinatesKey) == Get(m, CoordinatesKey) by {
      WithDefaultsContents(tags, m);
    }
    assert HasGps(tags) ==> Get(m, CoordinatesKey) == Some(GpsText(tags, showFloat)) by {
      GpsStepContents(tags, showFloat);
    }
    assert !HasGps(tags) ==> Get(m, CoordinatesKey) == PrintableOf(Get(tags, CoordinatesKey)) by {
      GpsStepContents(tags, showFloat);
    }
  }

  /** As the library names its tags, no tag is called "GPS Coordinates";
      the entry is then present exactly when all four GPS tags are. */
  lemma CoordinatesIffAllGpsTags(tags: seq<Entry<Tag>>, showFloat: real -> string)
    requires UniqueKeys(tags)
    requires !GpsRaises(tags)
    requires CoordinatesKey !in Keys(tags)
    ensures ExifStage(tags, showFloat).Ok?
    ensures CoordinatesKey in Keys(ExifStage(tags, showFloat).value) <==> HasGps(tags)
  {
  }

  /** "Camera Model" and "Software" are always present: the "Image Model"
      and "Image Software" tags' texts, or "Unknown". */
  lemma ExifStageDefaults(tags: seq<Entry<Tag>>, showFloat: real -> string)
    requires UniqueKeys(tags)
    requires !GpsRaises(tags)
    ensures ExifStage(tags, showFloat).Ok?
    ensures Get(ExifStage(tags, showFloat).value, CameraModelKey) ==
      Some(if ModelTag in Keys(tags) then Get(tags, ModelTag).value.printable else UnknownText)
    ensures Get(ExifStage(tags, showFloat).value, SoftwareKey) ==
      Some(if SoftwareTag in Keys(tags) then Get(tags, SoftwareTag).value.printable else UnknownText)
  {
  }

  /** A file without EXIF data yields just the two defaults. */
  lemma NoExifData(showFloat: real -> string)
    ensures ExifStage([], showFloat) == Ok([Entry(CameraModelKey, UnknownText), Entry(SoftwareKey, UnknownText)])
  {
    assert Update([], Printable([])) == [];
    assert !HasGps([]);
    assert GpsStep([], [], showFloat) == Ok([]);
    assert TextOr([], ModelTag, UnknownText) == UnknownText;
    assert TextOr([], SoftwareTag, UnknownText) == UnknownText;
    var withModel := Assign([], CameraModelKey, UnknownText);
    assert withModel == [Entry(CameraModelKey, UnknownText)];
    assert Assign(withModel, SoftwareKey, UnknownText) == withModel + [Entry(SoftwareKey, UnknownText)];
    assert WithDefaults([], []) == [Entry(CameraModelKey, UnknownText), Entry(SoftwareKey, UnknownText)];
  }
}

=== FILE: gps.dfy ===
/** GPS coordinate conversion: an EXIF degrees/minutes/seconds triple of
    rationals and a hemisphere reference become signed decimal degrees.
    Arithmetic is exact (over `real`), where the program uses floats. */
module Gps {
  import opened Wrappers

  /** One EXIF rational component: numerator over denominator. */
  datatype Rational = Rational(num: int, den: int)

  /** The conversion succeeds only on exactly three components with
      non-zero denominators; otherwise the unpacking of the three values
      or the division raises. */
  predicate WellFormed(values: seq<Rational>)
  {
    |values| == 3 && forall i :: 0 <= i < |values| ==> values[i].den != 0
  }

  /** `float(v.num) / float(v.den)`, exactly. */
  function Value(q: Rational): real
    requires q.den != 0
  {
    q.num as real / q.den as real
  }

  /** `convert_to_degrees`: degrees plus minutes/60 plus seconds/3600. */
  function Degrees(values: seq<Rational>): (r: real)
    requires WellFormed(values)
    ensures r * 3600.0 == Value(values[0]) * 3600.0 + Value(values[1]) * 60.0 + Value(values[2])
  {
    Value(values[0]) + Value(values[1]) / 60.0 + Value(values[2]) / 3600.0
  }

  /** The references that denote the southern and western hemispheres. */
  predicate Negates(ref: string)
  {
    ref == "S" || ref == "W"
  }

  /** `convert_gps(value, ref)`: signed decimal degrees. */
  function ConvertGps(values: seq<Rational>, ref: string): (r: real)
    requires WellFormed(values)
    ensures Negates(ref) ==> r + Degrees(values) == 0.0
    ensures !Negates(ref) ==> r == Degrees(values)
  {
    var degrees := Degrees(values);
    if ref in ["S", "W"] then -degrees else degrees
  }

  /** `convert_gps` as the EXIF stage calls it: `None` where it raises. */
  function TryConvertGps(values: seq<Rational>, ref: string): (r: Option<real>)
    ensures r.Some? <==> WellFormed(values)
    ensures r.Some? ==> r.value == ConvertGps(values, ref)
  {
    if WellFormed(values) then Some(ConvertGps(values, ref)) else None
  }

  /** South mirrors north and west mirrors east. */
  lemma SignSymmetry(values: seq<Rational>)
    requires WellFormed(values)
    ensures ConvertGps(values, "S") == -ConvertGps(values, "N")
    ensures ConvertGps(values, "W") == -ConvertGps(values, "E")
  {
  }

  /** With non-negative components, north and east give non-negative
      degrees and south and west non-positive ones. */
  lemma SignOfResult(values: seq<Rational>, ref: string)
    requires WellFormed(values)
    requires forall i :: 0 <= i < 3 ==> Value(values[i]) >= 0.0
    ensures Negates(ref) ==> ConvertGps(values, ref) <= 0.0
    ensures !Negates(ref) ==> ConvertGps(values, ref) >= 0.0
  {
  }

  /** Any reference other than exactly "S" or "W" (lower-case, padded or
      unknown ones included) leaves the magnitude unsigned. */
  lemma OtherReferencesKeepSign(values: seq<Rational>, ref: string)
    requires WellFormed(values)
    requires ref != "S" && ref != "W"
    ensures ConvertGps(values, ref) == ConvertGps(values, "N")
  {
  }

  /** 35 degrees 30 minutes north is 35.5; south it is -35.5. */
  lemma ExampleCoordinate()
    ensures ConvertGps([Rational(35, 1), Rational(30, 1), Rational(0, 1)], "N") == 35.5
    ensures ConvertGps([Rational(35, 1), Rational(30, 1), Rational(0, 1)], "S") == -35.5
  {
  }
}

=== FILE: header.dfy ===
/** The container-header stage: format-level fields read through the image
    library, or "PIL Error" when reading them raises. */
module Header {
  import opened Wrappers
  import opened OrderedMap
  import opened Text

  newtype byte = x: int | 0 <= x < 256

  /** What the opened image exposes. */
  datatype ImageInfo = ImageInfo(
    format: Option<string>,         // `img.format`, which the library may leave unset
    mode: string,                   // `img.mode`
    width: nat,                     // `img.width`
    height: nat,                    // `img.height`
    bits: Option<nat>,              // `img.bits`, when the image has that attribute
    compression: Option<string>,    // `img.info["compression"]`, when present
    iccProfile: Option<seq<byte>>)  // `img.info["icc_profile"]`, when present

  /** How reading the header went. `Failed` records the exception's text and
      how many of the six field assignments ran before it was raised (none
      when opening the file fails); the later fields of `info` play no part. */
  datatype ReadOutcome =
    | Read(info: ImageInfo)
    | Failed(info: ImageInfo, completed: nat, message: string)

  const FormatKey := "Format"
  const ModeKey := "Mode"
  const SizeKey := "Size (pixels)"
  const BitDepthKey := "Bit Depth"
  const CompressionKey := "Compression"
  const IccKey := "ICC Profile"
  const PilErrorKey := "PIL Error"

  /** The six keys the stage writes, in the order it writes them. */
  const FieldKeys := [FormatKey, ModeKey, SizeKey, BitDepthKey, CompressionKey, IccKey]

  /** `f"{img.width}x{img.height}"`. */
  function SizeText(width: nat, height: nat): (r: string)
    ensures |r| == |Decimal(width)| + 1 + |Decimal(height)|
    ensures r[|Decimal(width)|] == 'x'
    ensures forall i :: 0 <= i < |r| && i != |Decimal(width)| ==> '0' <= r[i] <= '9'
    ensures DecimalValue(r[..|Decimal(width)|]) == width
    ensures DecimalValue(r[|Decimal(width)| + 1..]) == height
  {
    var r := Decimal(width) + "x" + Decimal(height);
    assert r[..|Decimal(width)|] == Decimal(width);
    assert r[|Decimal(width)| + 1..] == Decimal(height);
    DecimalRoundTrip(width);
    DecimalRoundTrip(height);
    r
  }

  /** `img.bits if hasattr(img, "bits") else "Unknown"`, as written. */
  function BitDepthText(bits: Option<nat>): (r: string)
    ensures r == UnknownText <==> bits.None?
  {
    match bits
    case Some(b) => Decimal(b)
    case None => UnknownText
  }

  /** `"Present" if img.info.get("icc_profile") else "None"`: an empty
      profile counts as absent. */
  function IccText(profile: Option<seq<byte>>): (r: string)
    ensures r == "Present" <==> profile.Some? && |profile.value| > 0
    ensures r == "Present" || r == "None"
  {
    if profile.Some? && |profile.value| > 0 then "Present" else "None"
  }

  /** The six entries the stage assigns, in order. */
  function HeaderFields(info: ImageInfo): (r: seq<Entry<string>>)
    ensures |r| == |FieldKeys|
    ensures forall i :: 0 <= i < |r| ==> r[i].key == FieldKeys[i]
  {
    [ Entry(FormatKey, info.format.GetOr("None")),
      Entry(ModeKey, info.mode),
      Entry(SizeKey, SizeText(info.width, info.height)),
      Entry(BitDepthKey, BitDepthText(info.bits)),
      Entry(CompressionKey, info.compression.GetOr("None")),
      Entry(IccKey, IccText(info.iccProfile)) ]
  }

  /** The entries assigned before the stage ended. */
  function Stored(o: ReadOutcome): (r: seq<Entry<string>>)
    ensures |r| <= |FieldKeys|
    ensures o.Read? ==> |r| == |FieldKeys|
    ensures o.Failed? ==> |r| == if o.completed < |FieldKeys| then o.completed else |FieldKeys|
    ensures r == HeaderFields(o.info)[..|r|]
  {
    var fields := HeaderFields(o.info);
    if o.Read? || o.completed >= |fields| then fields else fields[..o.completed]
  }

  /** The try block of `extract_image_metadata`, applied to record `m`. */
  function HeaderStage(m: seq<Entry<string>>, o: ReadOutcome): (r: seq<Entry<string>>)
    ensures UniqueKeys(m) ==> UniqueKeys(r)
    ensures |r| >= |m|
    ensures forall i :: 0 <= i < |m| ==> r[i].key == m[i].key
  {
    var stored := Update(m, Stored(o));
    match o
    case Read(_) => stored
    case Failed(_, _, message) => Assign(stored, PilErrorKey, message)
  }

  /** The stored fields have distinct keys, none of them "PIL Error". */
  lemma StoredKeys(o: ReadOutcome)
    ensures UniqueKeys(Stored(o))
    ensures PilErrorKey !in Keys(Stored(o))
    ensures forall i :: 0 <= i < |Stored(o)| ==> Stored(o)[i].key == FieldKeys[i]
  {
    var s := Stored(o);
    forall i, j | 0 <= i < j < |s|
      ensures s[i].key != s[j].key
    {
    }
    UniqueFromDistinct(s);
    KeysIndex(s, PilErrorKey);
  }

  /** After the stage, each field that was stored holds its value, "PIL
      Error" holds the message exactly when reading failed, and every other
      key keeps its earlier value. */
  lemma HeaderStageValues(m: seq<Entry<string>>, o: ReadOutcome, k: string)
    ensures k in Keys(Stored(o)) ==> Get(HeaderStage(m, o), k) == Get(Stored(o), k)
    ensures o.Failed? ==> Get(HeaderStage(m, o), PilErrorKey) == Some(o.message)
    ensures o.Read? ==> Get(HeaderStage(m, o), PilErrorKey) == Get(m, PilErrorKey)
    ensures k !in Keys(Stored(o)) && k != PilErrorKey ==> Get(HeaderStage(m, o), k) == Get(m, k)
  {
    StoredKeys(o);
    GetUpdateUnique(m, Stored(o), k);
    GetUpdateUnique(m, Stored(o), PilErrorKey);
  }

  /** On a record holding none of the stage's keys, the stage appends the
      fields it stored, in assignment order, and then "PIL Error" when
      reading failed. */
  lemma HeaderStageAppends(m: seq<Entry<string>>, o: ReadOutcome)
    requires forall k :: k in FieldKeys ==> k !in Keys(m)
    requires PilErrorKey !in Keys(m)
    ensures o.Read? ==> HeaderStage(m, o) == m + HeaderFields(o.info)
    ensures o.Failed? ==> HeaderStage(m, o) == m + Stored(o) + [Entry(PilErrorKey, o.message)]
  {
    var s := Stored(o);
    StoredKeys(o);
    forall k | k in Keys(s)
      ensures k !in Keys(m)
    {
      KeysIndex(s, k);
      var i :| 0 <= i < |s| && s[i].key == k;
      assert FieldKeys[i] in FieldKeys;
    }
    UpdateFresh(m, s);
    KeysAppend(m, s);
  }

  /** A successful read stores all six fields. */
  lemma ReadStoresAllFields(m: seq<Entry<string>>, info: ImageInfo)
    ensures Keys(HeaderStage(m, Read(info))) == Keys(m) + {FormatKey, ModeKey, SizeKey, BitDepthKey, CompressionKey, IccKey}
  {
    var s := HeaderFields(info);
    assert Keys(s) == {FormatKey, ModeKey, SizeKey, BitDepthKey, CompressionKey, IccKey} by {
      forall k
        ensures k in Keys(s) <==> k in {FormatKey, ModeKey, SizeKey, BitDepthKey, CompressionKey, IccKey}
      {
        KeysIndex(s, k);
        if k == FormatKey { assert s[0].key == k; }
        if k == ModeKey { assert s[1].key == k; }
        if k == SizeKey { assert s[2].key == k; }
        if k == BitDepthKey { assert s[3].key == k; }
        if k == CompressionKey { assert s[4].key == k; }
        if k == IccKey { assert s[5].key == k; }
      }
    }
  }

  /** The size text determines both dimensions: digits never contain 'x'. */
  lemma {:induction false} SizeTextInjective(w1: nat, h1: nat, w2: nat, h2: nat)
    requires SizeText(w1, h1) == SizeText(w2, h2)
    ensures w1 == w2 && h1 == h2
  {
    var a1, a2 := Decimal(w1), Decimal(w2);
    var t := SizeText(w1, h1);
    assert t[|a1|] == 'x';
    assert SizeText(w2, h2)[|a2|] == 'x';
    assert |a1| == |a2|;
    assert a1 == t[..|a1|] == a2;
    assert Decimal(h1) == t[|a1| + 1..] == Decimal(h2);
    DecimalRoundTrip(w1);
    DecimalRoundTrip(w2);
    DecimalRoundTrip(h1);
    DecimalRoundTrip(h2);
  }
}

=== FILE: hidden.dfy ===
/** The deep ("hidden") metadata scan: the plaintext report of a generic
    binary-container parser is split into key/value entries. */
module Hidden {
  import opened Wrappers
  import opened OrderedMap
  import opened Text
  import opened ReportLine

  /** What the generic parser library does with the file. */
  datatype ScanOutcome =
      /** No parser can be built for the file (`createParser` gives nothing). */
    | NoParser
      /** A parser exists but no metadata extractor (`extractMetadata` gives nothing). */
    | NoExtractor
      /** The plaintext export of the extracted metadata, line by line. */
    | Exported(lines: seq<string>)
      /** An exception with text `message`, raised after the lines in
          `linesBefore` were stored (none when it comes from building the
          parser or the extractor). */
    | Raised(message: string, linesBefore: seq<string>)

  const HiddenKey := "Hidden Metadata"
  const UnableToParse := "Unable to parse"
  const HiddenErrorKey := "Hidden Metadata Error"

  /** The loop storing every split line: `metadata[key] = value`. */
  function StoreLines(lines: seq<string>): (r: seq<Entry<string>>)
    ensures UniqueKeys(r)
    ensures Keys(r) == Keys(SplitLines(lines))
    ensures forall k :: Get(r, k) == LastValue(SplitLines(lines), k)
  {
    assert forall k :: Get(Update([], SplitLines(lines)), k) == LastValue(SplitLines(lines), k) by {
      forall k
        ensures Get(Update([], SplitLines(lines)), k) == LastValue(SplitLines(lines), k)
      {
        GetUpdate([], SplitLines(lines), k);
      }
    }
    Update([], SplitLines(lines))
  }

  /** `extract_hidden_metadata`. */
  function HiddenStage(o: ScanOutcome): (r: seq<Entry<string>>)
    ensures UniqueKeys(r)
    ensures o.NoParser? ==> r == [Entry(HiddenKey, UnableToParse)]
    ensures o.NoExtractor? ==> r == []
    ensures o.Exported? ==> Keys(r) == Keys(SplitLines(o.lines))
    ensures o.Raised? ==> Keys(r) == Keys(SplitLines(o.linesBefore)) + {HiddenErrorKey}
  {
    match o
    case NoParser => [Entry(HiddenKey, UnableToParse)]
    case NoExtractor => []
    case Exported(lines) => StoreLines(lines)
    case Raised(message, before) => Assign(StoreLines(before), HiddenErrorKey, message)
  }

  /** On an exception the entries stored so far are kept and the error
      message is added under "Hidden Metadata Error". */
  lemma HiddenErrorKeepsEntries(message: string, before: seq<string>, k: string)
    ensures Get(HiddenStage(Raised(message, before)), HiddenErrorKey) == Some(message)
    ensures k != HiddenErrorKey ==> Get(HiddenStage(Raised(message, before)), k) == LastValue(SplitLines(before), k)
  {
  }

  /** A line whose key no later line repeats survives in the result: split
      at its first ": " when it has one, else as itself with "Unknown". */
  lemma HiddenLineContribution(lines: seq<string>, i: nat)
    requires i < |lines|
    requires forall j :: i < j < |lines| ==> SplitLine(lines[j]).0 != SplitLine(lines[i]).0
    ensures Contains(lines[i], Separator) ==>
      var v := Get(HiddenStage(Exported(lines)), SplitLine(lines[i]).0);
      v.Some? && SplitLine(lines[i]).0 + Separator + v.value == lines[i]
    ensures !Contains(lines[i], Separator) ==>
      Get(HiddenStage(Exported(lines)), lines[i]) == Some(UnknownText)
  {
    LastValueAt(SplitLines(lines), i);
  }

  /** A line with a separator and a line without one. */
  lemma HiddenExample()
    ensures HiddenStage(Exported(["Key: Value", "JustAWord"])) ==
      [Entry("Key", "Value"), Entry("JustAWord", "Unknown")]
  {
    var pairs := [Entry("Key", "Value"), Entry("JustAWord", "Unknown")];
    ExampleLines();
    assert UniqueKeys(pairs);
    UpdateFresh([], pairs);
  }

  /** How the two example lines split. */
  lemma ExampleLines()
    ensures SplitLines(["Key: Value", "JustAWord"]) == [Entry("Key", "Value"), Entry("JustAWord", "Unknown")]
  {
    NoColonNoSeparator("Key");
    SplitRenderLine("Key", "Value");
    assert RenderLine("Key", "Value") == "Key: Value";
    NoColonNoSeparator("JustAWord");
  }
}

=== FILE: lines.dfy ===
/** The `key: value` line format shared by the deep-metadata scanner, which
    splits such lines, and the report writer, which renders them. */
module ReportLine {
  import opened Wrappers
  import opened OrderedMap
  import opened Text

  /** What separates a key from its value on a line. */
  const Separator := ": "

  /** `line.split(": ", 1) if ": " in line else (line, "Unknown")`. */
  function SplitLine(line: string): (r: (string, string))
    ensures Contains(line, Separator) ==> r.0 + Separator + r.1 == line
    ensures Contains(line, Separator) ==> !Contains(r.0, Separator)
    ensures !Contains(line, Separator) ==> r == (line, UnknownText)
  {
    match IndexOf(line, Separator)
    case Some(i) =>
      var key := line[..i];
      assert !Contains(key, Separator) by {
        forall j | 0 <= j <= |key| && OccursAt(key, Separator, j)
          ensures OccursAt(line, Separator, j)
        {
          assert key[j..j + 2] == line[j..j + 2];
        }
      }
      assert line == key + Separator + line[i + 2..] by {
        assert line == line[..i] + line[i..i + 2] + line[i + 2..];
      }
      (key, line[i + 2..])
    case None => (line, UnknownText)
  }

  /** Each line split into an entry, in order: a line with a separator is
      the entry's rendering and its key holds no separator; a line without
      one becomes the key, with "Unknown" as its value. */
  function SplitLines(lines: seq<string>): (r: seq<Entry<string>>)
    ensures |r| == |lines|
    ensures forall i :: 0 <= i < |lines| && Contains(lines[i], Separator) ==>
      !Contains(r[i].key, Separator) && r[i].key + Separator + r[i].value == lines[i]
    ensures forall i :: 0 <= i < |lines| && !Contains(lines[i], Separator) ==>
      r[i] == Entry(lines[i], UnknownText)
  {
    seq(|lines|, i requires 0 <= i < |lines| => Entry(SplitLine(lines[i]).0, SplitLine(lines[i]).1))
  }

  /** The text of one report line, without its line break. */
  function RenderLine(key: string, value: string): (r: string)
    ensures |r| == |key| + |Separator| + |value|
    ensures r[..|key|] == key
    ensures OccursAt(r, Separator, |key|)
    ensures r[|key| + |Separator|..] == value
  {
    key + Separator + value
  }

  /** Splitting a rendered line gives back its key and value, provided the
      key does not itself contain the separator. */
  lemma SplitRenderLine(key: string, value: string)
    requires !Contains(key, Separator)
    ensures SplitLine(RenderLine(key, value)) == (key, value)
  {
    var line := RenderLine(key, value);
    assert line[|key|..|key| + 2] == Separator;
    forall j | 0 <= j < |key|
      ensures !OccursAt(line, Separator, j)
    {
      if j + 2 <= |key| {
        assert key[j..j + 2] == line[j..j + 2];
        assert !OccursAt(key, Separator, j);
      } else {
        assert line[j..j + 2] != Separator by {
          assert line[j..j + 2][1] == line[|key|] == ':';
        }
      }
    }
    IndexOfFirst(line, Separator, |key|);
    assert line[..|key|] == key;
    assert line[|key| + 2..] == value;
  }

  /** A text without a colon holds no separator. */
  lemma NoColonNoSeparator(s: string)
    requires forall i :: 0 <= i < |s| ==> s[i] != ':'
    ensures !Contains(s, Separator)
  {
    forall j | 0 <= j <= |s|
      ensures !OccursAt(s, Separator, j)
    {
      if j + 2 <= |s| {
        assert s[j..j + 2][0] == s[j];
      }
    }
  }
}

=== FILE: ordered_map.dfy ===
/** A Python `dict` of string keys: an insertion-ordered sequence of entries.
    Assigning to a key already present overwrites its value in place;
    assigning to a new key appends it. */
module OrderedMap {
  import opened Wrappers

  /** One key/value pair of an ordered map. */
  datatype Entry<V> = Entry(key: string, value: V)

  /** The keys of `m`. */
  function Keys<V>(m: seq<Entry<V>>): set<string>
  {
    if |m| == 0 then {} else {m[0].key} + Keys(m[1..])
  }

  /** No key occurs twice, as in every dictionary. */
  predicate UniqueKeys<V>(m: seq<Entry<V>>)
  {
    |m| == 0 || (m[0].key !in Keys(m[1..]) && UniqueKeys(m[1..]))
  }

  /** `k in Keys(m)` says some entry carries key `k`. */
  lemma {:induction false} KeysIndex<V>(m: seq<Entry<V>>, k: string)
    ensures k in Keys(m) <==> exists i :: 0 <= i < |m| && m[i].key == k
  {
    if |m| > 0 {
      KeysIndex(m[1..], k);
      if k in Keys(m[1..]) {
        var i :| 0 <= i < |m[1..]| && m[1..][i].key == k;
        assert m[i + 1].key == k;
      }
      forall i | 0 < i < |m| && m[i].key == k
        ensures k in Keys(m[1..])
      {
        assert m[1..][i - 1].key == k;
      }
    }
  }

  /** Unique keys mean no two positions carry the same key. */
  lemma {:induction false} UniqueKeysDistinct<V>(m: seq<Entry<V>>, i: nat, j: nat)
    requires UniqueKeys(m)
    requires i < j < |m|
    ensures m[i].key != m[j].key
  {
    if i == 0 {
      KeysIndex(m[1..], m[j].key);
      assert m[1..][j - 1].key == m[j].key;
    } else {
      UniqueKeysDistinct(m[1..], i - 1, j - 1);
    }
  }

  /** Distinct keys at distinct positions make unique keys. */
  lemma {:induction false} UniqueFromDistinct<V>(s: seq<Entry<V>>)
    requires forall i, j :: 0 <= i < j < |s| ==> s[i].key != s[j].key
    ensures UniqueKeys(s)
  {
    if |s| > 0 {
      KeysIndex(s[1..], s[0].key);
      UniqueFromDistinct(s[1..]);
    }
  }

  /** The keys of a concatenation. */
  lemma {:induction false} KeysAppend<V>(a: seq<Entry<V>>, b: seq<Entry<V>>)
    ensures Keys(a + b) == Keys(a) + Keys(b)
  {
    if |a| > 0 {
      assert (a + b)[1..] == a[1..] + b;
      KeysAppend(a[1..], b);
    } else {
      assert a + b == b;
    }
  }

  /** `m[k]` / `m.get(k)`: the value stored under `k`, `None` when absent. */
  function Get<V>(m: seq<Entry<V>>, k: string): (r: Option<V>)
    ensures r.Some? <==> k in Keys(m)
  {
    if |m| == 0 then None
    else if m[0].key == k then Some(m[0].value)
    else Get(m[1..], k)
  }

  /** In a map with unique keys, the entry at any position is what `Get`
      finds under its key. */
  lemma {:induction false} GetAt<V>(m: seq<Entry<V>>, i: nat)
    requires UniqueKeys(m)
    requires i < |m|
    ensures Get(m, m[i].key) == Some(m[i].value)
  {
    if i > 0 {
      UniqueKeysDistinct(m, 0, i);
      GetAt(m[1..], i - 1);
    }
  }

  /** `m[k] = v`: overwrite in place when `k` is present, append otherwise. */
  function Assign<V>(m: seq<Entry<V>>, k: string, v: V): (r: seq<Entry<V>>)
    ensures Keys(r) == Keys(m) + {k}
    ensures Get(r, k) == Some(v)
    ensures forall k' :: k' != k ==> Get(r, k') == Get(m, k')
    ensures |r| == if k in Keys(m) then |m| else |m| + 1
    ensures forall i :: 0 <= i < |m| ==> r[i].key == m[i].key
    ensures k !in Keys(m) ==> r == m + [Entry(k, v)]
    ensures UniqueKeys(m) ==> UniqueKeys(r)
  {
    if |m| == 0 then [Entry(k, v)]
    else if m[0].key == k then [Entry(k, v)] + m[1..]
    else [m[0]] + Assign(m[1..], k, v)
  }

  /** The value of the LAST entry of `n` with key `k`: a reference reading
      of "later assignments win", scanning from the end. */
  function LastValue<V>(n: seq<Entry<V>>, k: string): (r: Option<V>)
    ensures r.Some? <==> k in Keys(n)
  {
    if |n| == 0 then None
    else
      var init := n[..|n| - 1];
      assert n == init + [n[|n| - 1]];
      KeysAppend(init, [n[|n| - 1]]);
      if n[|n| - 1].key == k then Some(n[|n| - 1].value)
      else LastValue(init, k)
  }

  /** `m.update(n)`: assign the entries of `n` to `m` one by one, in order. */
  function Update<V>(m: seq<Entry<V>>, n: seq<Entry<V>>): (r: seq<Entry<V>>)
    ensures Keys(r) == Keys(m) + Keys(n)
    ensures |r| >= |m|
    ensures forall i :: 0 <= i < |m| ==> r[i].key == m[i].key
    ensures UniqueKeys(m) ==> UniqueKeys(r)
    decreases |n|
  {
    if |n| == 0 then m
    else Update(Assign(m, n[0].key, n[0].value), n[1..])
  }

  /** Looking at the last entry of `[e] + t` for `k`: it lies in `t` if `t`
      has one, otherwise it is `e` or there is none. */
  lemma {:induction false} LastValueCons<V>(e: Entry<V>, t: seq<Entry<V>>, k: string)
    ensures LastValue([e] + t, k) ==
      if k in Keys(t) then LastValue(t, k)
      else if e.key == k then Some(e.value)
      else None
    decreases |t|
  {
    var n := [e] + t;
    if |t| == 0 {
      assert n == [e];
    } else {
      assert n[..|n| - 1] == [e] + t[..|t| - 1];
      assert n[|n| - 1] == t[|t| - 1];
      assert t == t[..|t| - 1] + [t[|t| - 1]];
      KeysAppend(t[..|t| - 1], [t[|t| - 1]]);
      LastValueCons(e, t[..|t| - 1], k);
    }
  }

  /** An entry followed by no other entry with its key is the last one. */
  lemma {:induction false} LastValueAt<V>(n: seq<Entry<V>>, i: nat)
    requires i < |n|
    requires forall j :: i < j < |n| ==> n[j].key != n[i].key
    ensures LastValue(n, n[i].key) == Some(n[i].value)
    decreases |n|
  {
    if i < |n| - 1 {
      var init := n[..|n| - 1];
      assert init[i] == n[i];
      LastValueAt(init, i);
    }
  }

  /** After `m.update(n)`, a key of `n` holds the value of its last entry in
      `n`; every other key holds what it held in `m`. */
  lemma {:induction false} GetUpdate<V>(m: seq<Entry<V>>, n: seq<Entry<V>>, k: string)
    ensures Get(Update(m, n), k) ==
      if k in Keys(n) then LastValue(n, k) else Get(m, k)
    decreases |n|
  {
    if |n| > 0 {
      var m1 := Assign(m, n[0].key, n[0].value);
      GetUpdate(m1, n[1..], k);
      assert n == [n[0]] + n[1..];
      LastValueCons(n[0], n[1..], k);
    }
  }

  /** Without repeated keys, the last entry for a key is the only one. */
  lemma {:induction false} LastValueUnique<V>(n: seq<Entry<V>>, k: string)
    requires UniqueKeys(n)
    ensures LastValue(n, k) == Get(n, k)
    decreases |n|
  {
    if |n| > 0 {
      assert n == [n[0]] + n[1..];
      LastValueCons(n[0], n[1..], k);
      LastValueUnique(n[1..], k);
    }
  }

  /** Updating with a dictionary: its keys win, all other keys are kept. */
  lemma GetUpdateUnique<V>(m: seq<Entry<V>>, n: seq<Entry<V>>, k: string)
    requires UniqueKeys(n)
    ensures Get(Update(m, n), k) == if k in Keys(n) then Get(n, k) else Get(m, k)
  {
    GetUpdate(m, n, k);
    LastValueUnique(n, k);
  }

  /** Moving the first entry of `n` onto the end of `m`. */
  lemma AppendFirst<V>(m: seq<Entry<V>>, n: seq<Entry<V>>)
    requires |n| > 0
    ensures (m + [n[0]]) + n[1..] == m + n
  {
    assert [n[0]] + n[1..] == n;
  }

  /** Assigning a key that is new to `m` appends it. */
  lemma AssignFresh<V>(m: seq<Entry<V>>, n: seq<Entry<V>>)
    requires |n| > 0
    requires UniqueKeys(n)
    requires Keys(m) !! Keys(n)
    ensures Update(m, n) == Update(m + [n[0]], n[1..])
    ensures Keys(m + [n[0]]) !! Keys(n[1..])
    ensures UniqueKeys(n[1..])
  {
  }

  /** Updating with entries whose keys are all new appends them in order. */
  lemma {:induction false} UpdateFresh<V>(m: seq<Entry<V>>, n: seq<Entry<V>>)
    requires UniqueKeys(n)
    requires Keys(m) !! Keys(n)
    ensures Update(m, n) == m + n
    decreases |n|
  {
    if |n| > 0 {
      AssignFresh(m, n);
      UpdateFresh(m + [n[0]], n[1..]);
      AppendFirst(m, n);
    } else {
      assert m + n == m;
    }
  }
}

=== FILE: pipeline.dfy ===
/** `extract_image_metadata`: the stages run in a fixed order over one
    insertion-ordered record, each later stage overwriting earlier values
    of the keys it writes. */
module Pipeline {
  import opened Wrappers
  import opened OrderedMap
  import opened Text
  import Exif
  import Hidden
  import Header

  /** The filesystem facts the record is seeded with. The platform's base
      name, size and rendered timestamps are inputs of the model. */
  datatype FileStat = FileStat(baseName: string, size: nat, created: string, modified: string)

  /** What the libraries and the filesystem report for one file. `stat` is
      `None` when the file cannot be examined; `tags` is `Err(message)` when
      opening the file for the EXIF library or reading its tags raises. */
  datatype Sources = Sources(
    stat: Option<FileStat>,
    header: Header.ReadOutcome,
    tags: Result<seq<Entry<Exif.Tag>>, string>,
    scan: Hidden.ScanOutcome)

  /** Why the whole extraction raises. */
  datatype ExtractFailure =
    | StatFailed                             // the filesystem calls raise
    | ExifUnreadable(message: string)        // opening or reading the EXIF tags raises
    | ExifRaised(failure: Exif.ExifFailure)  // the GPS conversion raises

  /** A tag dictionary that was read has unique keys. */
  predicate TagsValid(tags: Result<seq<Entry<Exif.Tag>>, string>)
  {
    tags.Ok? ==> UniqueKeys(tags.value)
  }

  const FileNameKey := "File Name"
  const FileSizeKey := "File Size (bytes)"
  const CreatedKey := "Creation Time"
  const ModifiedKey := "Modification Time"

  /** The keys of the seed record, in order. */
  const FileKeys := [FileNameKey, FileSizeKey, CreatedKey, ModifiedKey]

  /** `image_path.lower().endswith('.heic')`. Only ASCII letters lower-case
      to the letters of ".heic", so ASCII case folding decides the test. */
  predicate IsHeic(path: string)
    ensures IsHeic(path) <==> |path| >= 5 && Lower(path[|path| - 5..]) == ".heic"
  {
    EndsWith(Lower(path), ".heic")
  }

  /** The dictionary literal that starts the record. */
  function Seed(st: FileStat): (r: seq<Entry<string>>)
    ensures |r| == |FileKeys|
    ensures forall i :: 0 <= i < |r| ==> r[i].key == FileKeys[i]
  {
    [ Entry(FileNameKey, st.baseName),
      Entry(FileSizeKey, Decimal(st.size)),
      Entry(CreatedKey, st.created),
      Entry(ModifiedKey, st.modified) ]
  }

  /** What the EXIF step merges into the record: nothing for a .heic path,
      whose file the EXIF library never opens. */
  function ExifContribution(path: string, tags: Result<seq<Entry<Exif.Tag>>, string>, showFloat: real -> string): (r: Result<seq<Entry<string>>, ExtractFailure>)
    requires TagsValid(tags)
    ensures r.Err? <==> !IsHeic(path) && (tags.Err? || Exif.GpsRaises(tags.value))
    ensures !IsHeic(path) && tags.Err? ==> r == Err(ExifUnreadable(tags.error))
    ensures !IsHeic(path) && tags.Ok? && r.Err? ==> r.error.ExifRaised?
    ensures r.Ok? ==> UniqueKeys(r.value)
    ensures IsHeic(path) ==> r == Ok([])
    ensures !IsHeic(path) && r.Ok? ==> tags.Ok? && r == Ok(Exif.ExifStage(tags.value, showFloat).value)
  {
    if IsHeic(path) then Ok([])
    else match tags
      case Err(message) => Err(ExifUnreadable(message))
      case Ok(t) =>
        match Exif.ExifStage(t, showFloat)
        case Err(e) => Err(ExifRaised(e))
        case Ok(m) => Exif.ExifStageKeys(t, showFloat); Ok(m)
  }

  /** The record after the seed and the header stage. */
  function AfterHeader(st: FileStat, header: Header.ReadOutcome): (r: seq<Entry<string>>)
    ensures UniqueKeys(r)
    ensures |r| >= |FileKeys|
    ensures forall i :: 0 <= i < |FileKeys| ==> r[i].key == FileKeys[i]
  {
    var seed := Seed(st);
    UniqueFromDistinct(seed);
    Header.HeaderStage(seed, header)
  }

  /** The seed's keys are none of the header stage's keys, so the header
      stage appends to the seed: the fields stored, in order, then "PIL
      Error" when reading failed. */
  lemma AfterHeaderAppends(st: FileStat, header: Header.ReadOutcome)
    ensures header.Read? ==> AfterHeader(st, header) == Seed(st) + Header.HeaderFields(header.info)
    ensures header.Failed? ==>
      AfterHeader(st, header) == Seed(st) + Header.Stored(header) + [Entry(Header.PilErrorKey, header.message)]
  {
    var seed := Seed(st);
    forall k | k in Header.FieldKeys || k == Header.PilErrorKey
      ensures k !in Keys(seed)
    {
      KeysIndex(seed, k);
    }
    Header.HeaderStageAppends(seed, header);
  }

  /** Extraction completes: the file can be examined, and the EXIF stage
      is skipped or reads the tags and does not raise. */
  predicate Succeeds(path: string, src: Sources)
  {
    src.stat.Some? && (IsHeic(path) || (src.tags.Ok? && !Exif.GpsRaises(src.tags.value)))
  }

  /** `extract_image_metadata(path)`. */
  function Extract(path: string, src: Sources, showFloat: real -> string): (r: Result<seq<Entry<string>>, ExtractFailure>)
    requires TagsValid(src.tags)
    ensures r.Ok? <==> Succeeds(path, src)
    ensures r.Err? ==> (r.error == StatFailed <==> src.stat.None?)
    ensures r.Err? && src.stat.Some? ==> (r.error.ExifUnreadable? <==> src.tags.Err?)
    ensures r.Ok? ==> UniqueKeys(r.value)
    ensures r.Ok? ==> |r.value| >= |FileKeys| && forall i :: 0 <= i < |FileKeys| ==> r.value[i].key == FileKeys[i]
  {
    match src.stat
    case None => Err(StatFailed)
    case Some(st) =>
      match ExifContribution(path, src.tags, showFloat)
      case Err(e) => Err(e)
      case Ok(exif) =>
        Ok(Update(Update(AfterHeader(st, src.header), exif), Hidden.HiddenStage(src.scan)))
  }

  /** The four filesystem keys are always present, first and in order. */
  lemma FileKeysPresent(path: string, src: Sources, showFloat: real -> string)
    requires TagsValid(src.tags)
    requires Succeeds(path, src)
    ensures forall k :: k in FileKeys ==> k in Keys(Extract(path, src, showFloat).value)
  {
    var r := Extract(path, src, showFloat).value;
    forall k | k in FileKeys
      ensures k in Keys(r)
    {
      var i :| 0 <= i < |FileKeys| && FileKeys[i] == k;
      KeysIndex(r, k);
      assert r[i].key == k;
    }
  }

  /** A .heic path gets no EXIF contribution: the tags, and whether they
      could be read at all, play no part, and the record is the header stage
      followed by the hidden stage. */
  lemma HeicSkipsExif(path: string, src: Sources, tags: Result<seq<Entry<Exif.Tag>>, string>, showFloat: real -> string)
    requires IsHeic(path)
    requires TagsValid(src.tags) && TagsValid(tags)
    requires src.stat.Some?
    ensures Extract(path, src, showFloat) == Extract(path, src.(tags := tags), showFloat)
    ensures Extract(path, src, showFloat) ==
      Ok(Update(AfterHeader(src.stat.value, src.header), Hidden.HiddenStage(src.scan)))
  {
  }

  /** A key the hidden stage writes holds the hidden stage's value: it is
      merged last. */
  lemma HiddenStageWins(path: string, src: Sources, showFloat: real -> string, k: string)
    requires TagsValid(src.tags)
    requires Succeeds(path, src)
    requires k in Keys(Hidden.HiddenStage(src.scan))
    ensures Get(Extract(path, src, showFloat).value, k) == Get(Hidden.HiddenStage(src.scan), k)
  {
    var exif := ExifContribution(path, src.tags, showFloat).value;
    GetUpdateUnique(Update(AfterHeader(src.stat.value, src.header), exif), Hidden.HiddenStage(src.scan), k);
  }

  /** A key the hidden stage does not write holds the EXIF stage's value when
      that stage ran and wrote it, and otherwise its value after the header
      stage. */
  lemma EarlierValuesKept(path: string, src: Sources, showFloat: real -> string, k: string)
    requires TagsValid(src.tags)
    requires Succeeds(path, src)
    requires k !in Keys(Hidden.HiddenStage(src.scan))
    ensures var exif := ExifContribution(path, src.tags, showFloat).value;
      Get(Extract(path, src, showFloat).value, k) ==
        if k in Keys(exif) then Get(exif, k) else Get(AfterHeader(src.stat.value, src.header), k)
  {
    var exif := ExifContribution(path, src.tags, showFloat).value;
    var before := AfterHeader(src.stat.value, src.header);
    GetUpdateUnique(Update(before, exif), Hidden.HiddenStage(src.scan), k);
    GetUpdateUnique(before, exif, k);
  }

  /** When the stages write disjoint keys, the finished record is the
      header stage's record, then the EXIF entries, then the hidden
      entries, each in its own order: the order of the report's lines. */
  lemma ExtractOrder(path: string, src: Sources, showFloat: real -> string)
    requires TagsValid(src.tags)
    requires Succeeds(path, src)
    requires Keys(AfterHeader(src.stat.value, src.header)) !! Keys(ExifContribution(path, src.tags, showFloat).value)
    requires Keys(AfterHeader(src.stat.value, src.header)) + Keys(ExifContribution(path, src.tags, showFloat).value)
      !! Keys(Hidden.HiddenStage(src.scan))
    ensures Extract(path, src, showFloat).value ==
      AfterHeader(src.stat.value, src.header) + ExifContribution(path, src.tags, showFloat).value
      + Hidden.HiddenStage(src.scan)
  {
    var a := AfterHeader(src.stat.value, src.header);
    var e := ExifContribution(path, src.tags, showFloat).value;
    UpdateFresh(a, e);
    KeysAppend(a, e);
    UpdateFresh(a + e, Hidden.HiddenStage(src.scan));
  }

  /** The .heic test ignores letter case, and accepts any spelling of the
      suffix. */
  lemma HeicIgnoresCase(path: string)
    ensures IsHeic(path) <==> IsHeic(Lower(path))
    ensures IsHeic(path + ".heic") && IsHeic(path + ".HEIC") && IsHeic(path + ".HeIc")
  {
    HeicLowered(path);
    HeicSuffix(path, ".heic");
    HeicSuffix(path, ".HEIC");
    HeicSuffix(path, ".HeIc");
  }

  /** Lower-casing the path first does not change the test. */
  lemma HeicLowered(path: string)
    ensures IsHeic(path) <==> IsHeic(Lower(path))
  {
    var lower := Lower(path);
    LowerIdempotent(path);
    assert IsHeic(lower) == EndsWith(Lower(lower), ".heic");
  }

  /** A spelling of ".heic": a dot, then each letter in either case. */
  predicate HeicSpelling(suffix: string)
  {
    && |suffix| == 5 && suffix[0] == '.'
    && (suffix[1] == 'h' || suffix[1] == 'H')
    && (suffix[2] == 'e' || suffix[2] == 'E')
    && (suffix[3] == 'i' || suffix[3] == 'I')
    && (suffix[4] == 'c' || suffix[4] == 'C')
  }

  /** Appending any spelling of ".heic" makes a .heic path. */
  lemma HeicSuffix(path: string, suffix: string)
    requires HeicSpelling(suffix)
    ensures IsHeic(path + suffix)
  {
    var p := path + suffix;
    HeicSpellingLowers(suffix);
    assert p[|p| - 5..] == suffix;
  }

  /** Every spelling of ".heic" lower-cases to ".heic". */
  lemma HeicSpellingLowers(suffix: string)
    requires HeicSpelling(suffix)
    ensures Lower(suffix) == ".heic"
  {
    var lower := Lower(suffix);
    assert lower[0] == '.' && lower[1] == 'h' && lower[2] == 'e' && lower[3] == 'i' && lower[4] == 'c';
  }
}

=== FILE: report.dfy ===
/** The text report: one `key: value` line per entry, in record order, and
    the reading of such a text back into entries. */
module Report {
  import opened Wrappers
  import opened OrderedMap
  import opened Text
  import opened ReportLine

  /** The report's text: `f"{key}: {value}\n"` for each entry, in order. */
  function Render(m: seq<Entry<string>>): (r: string)
    ensures r == "" <==> |m| == 0
    ensures |m| > 0 ==> r[|r| - 1] == '\n'
    ensures |m| > 0 ==> |r| > |m[0].key| && r[..|m[0].key|] == m[0].key
  {
    if |m| == 0 then "" else RenderLine(m[0].key, m[0].value) + "\n" + Render(m[1..])
  }

  /** No line break in `s`. */
  predicate SingleLine(s: string)
  {
    forall i :: 0 <= i < |s| ==> s[i] != '\n'
  }

  /** A text cut at its line breaks; a last piece without a line break is a
      line too. */
  function Lines(text: string): seq<string>
    decreases |text|
  {
    if |text| == 0 then []
    else match IndexOf(text, "\n")
      case Some(i) => [text[..i]] + Lines(text[i + 1..])
      case None => [text]
  }

  /** A report read back: each line split as the deep scanner splits lines. */
  function Read(text: string): (r: seq<Entry<string>>)
    ensures |r| == |Lines(text)|
  {
    SplitLines(Lines(text))
  }

  /** Entries that survive the report: keys without the separator, neither
      keys nor values spanning lines. */
  predicate Writable(m: seq<Entry<string>>)
  {
    forall i :: 0 <= i < |m| ==>
      !Contains(m[i].key, Separator) && SingleLine(m[i].key) && SingleLine(m[i].value)
  }

  /** A single line followed by a line break is the first line. */
  lemma {:induction false} LinesCons(line: string, rest: string)
    requires SingleLine(line)
    ensures Lines(line + "\n" + rest) == [line] + Lines(rest)
  {
    var text := line + "\n" + rest;
    assert text[|line|..|line| + 1] == "\n";
    forall j | 0 <= j < |line|
      ensures !OccursAt(text, "\n", j)
    {
      assert text[j..j + 1][0] == line[j];
    }
    IndexOfFirst(text, "\n", |line|);
    assert text[..|line|] == line;
    assert text[|line| + 1..] == rest;
  }

  /** When no key or value holds a line break, the report has one line
      per entry, in record order. */
  lemma {:induction false} ReportLines(m: seq<Entry<string>>)
    requires forall i :: 0 <= i < |m| ==> SingleLine(m[i].key) && SingleLine(m[i].value)
    ensures |Lines(Render(m))| == |m|
    ensures forall i :: 0 <= i < |m| ==> Lines(Render(m))[i] == RenderLine(m[i].key, m[i].value)
  {
    if |m| > 0 {
      var line := RenderLine(m[0].key, m[0].value);
      assert SingleLine(line);
      LinesCons(line, Render(m[1..]));
      assert Render(m) == line + "\n" + Render(m[1..]);
      ReportLines(m[1..]);
    }
  }

  /** Reading the report back gives the record it was written from. */
  lemma ReportRoundTrip(m: seq<Entry<string>>)
    requires Writable(m)
    ensures Read(Render(m)) == m
  {
    ReportLines(m);
    var r := Read(Render(m));
    forall i | 0 <= i < |m|
      ensures r[i] == m[i]
    {
      SplitRenderLine(m[i].key, m[i].value);
    }
  }
}

=== FILE: text.dfy ===
/** String primitives of the extractor: substring search, ASCII lower-casing,
    suffix tests and decimal rendering of integers. */
module Text {
  import opened Wrappers

  /** The text the extractor writes for a value it cannot find. */
  const UnknownText := "Unknown"

  /** `pat` occurs in `s` starting at position `i`. */
  predicate OccursAt(s: string, pat: string, i: int)
  {
    0 <= i && i + |pat| <= |s| && s[i..i + |pat|] == pat
  }

  /** Python's `pat in s`. */
  predicate Contains(s: string, pat: string)
  {
    exists i :: 0 <= i <= |s| && OccursAt(s, pat, i)
  }

  /** The first position at or after `from` where `pat` occurs. */
  function IndexFrom(s: string, pat: string, from: nat): (r: Option<nat>)
    ensures r.Some? ==> from <= r.value && OccursAt(s, pat, r.value)
    ensures r.Some? ==> forall j :: from <= j < r.value ==> !OccursAt(s, pat, j)
    ensures r.None? ==> forall j :: from <= j ==> !OccursAt(s, pat, j)
    decreases |s| - from
  {
    if |s| < from + |pat| then None
    else if s[from..from + |pat|] == pat then Some(from)
    else IndexFrom(s, pat, from + 1)
  }

  /** Python's `s.find(pat)`, with `None` for -1. */
  function IndexOf(s: string, pat: string): (r: Option<nat>)
    ensures r.Some? <==> Contains(s, pat)
    ensures r.Some? ==> OccursAt(s, pat, r.value)
    ensures r.Some? ==> forall j :: 0 <= j < r.value ==> !OccursAt(s, pat, j)
  {
    IndexFrom(s, pat, 0)
  }

  /** The position found by `IndexOf` is the only first occurrence. */
  lemma IndexOfFirst(s: string, pat: string, i: nat)
    requires OccursAt(s, pat, i)
    requires forall j :: 0 <= j < i ==> !OccursAt(s, pat, j)
    ensures IndexOf(s, pat) == Some(i)
  {
  }

  /** Python's `c.lower()` restricted to ASCII; other characters are kept. */
  function LowerChar(c: char): (r: char)
    ensures 'A' <= c <= 'Z' ==> 'a' <= r <= 'z' && r as int - c as int == 'a' as int - 'A' as int
    ensures !('A' <= c <= 'Z') ==> r == c
  {
    if 'A' <= c <= 'Z' then (c as int - 'A' as int + 'a' as int) as char else c
  }

  /** `s.lower()`, one character at a time: no upper-case ASCII letter is
      left, each one becomes its lower-case letter, and every other
      character is kept. */
  function Lower(s: string): (r: string)
    ensures |r| == |s|
    ensures forall i :: 0 <= i < |r| ==> !('A' <= r[i] <= 'Z')
    ensures forall i :: 0 <= i < |s| && 'A' <= s[i] <= 'Z' ==>
      r[i] as int == s[i] as int + ('a' as int - 'A' as int)
    ensures forall i :: 0 <= i < |s| && !('A' <= s[i] <= 'Z') ==> r[i] == s[i]
  {
    seq(|s|, i requires 0 <= i < |s| => LowerChar(s[i]))
  }

  /** Lower-casing twice is lower-casing once. */
  lemma LowerIdempotent(s: string)
    ensures Lower(Lower(s)) == Lower(s)
  {
  }

  /** Python's `s.endswith(suffix)`. */
  predicate EndsWith(s: string, suffix: string)
  {
    |suffix| <= |s| && s[|s| - |suffix|..] == suffix
  }

  /** The decimal digit for `d`. */
  function Digit(d: nat): (c: char)
    requires d < 10
    ensures '0' <= c <= '9'
  {
    ('0' as int + d) as char
  }

  /** The value of a decimal digit character. */
  function DigitValue(c: char): (d: nat)
    requires '0' <= c <= '9'
    ensures d < 10
  {
    c as int - '0' as int
  }

  /** `str(n)` for a non-negative integer. */
  function Decimal(n: nat): (r: string)
    ensures |r| > 0
    ensures forall i :: 0 <= i < |r| ==> '0' <= r[i] <= '9'
    ensures r[0] == '0' ==> n == 0
  {
    if n < 10 then [Digit(n)] else Decimal(n / 10) + [Digit(n % 10)]
  }

  /** The value of a string of decimal digits, most significant first. */
  function DecimalValue(s: string): nat
    requires forall i :: 0 <= i < |s| ==> '0' <= s[i] <= '9'
  {
    if |s| == 0 then 0
    else DecimalValue(s[..|s| - 1]) * 10 + DigitValue(s[|s| - 1])
  }

  /** Reading back a rendered integer gives the integer. */
  lemma {:induction false} DecimalRoundTrip(n: nat)
    ensures DecimalValue(Decimal(n)) == n
  {
    if n >= 10 {
      var r := Decimal(n);
      assert r[..|r| - 1] == Decimal(n / 10);
      DecimalRoundTrip(n / 10);
    }
  }
}

=== FILE: wrappers.dfy ===
/** Failure-compatible wrappers shared by the extractor model. */
module Wrappers {

  /** An optional value: `None` where the program has no value (a missing
      dictionary key, an attribute the object does not have). */
  datatype Option<+T> = None | Some(value: T) {

    /** The wrapped value, or `default` when there is none. */
    function GetOr(default: T): T {
      match this
      case Some(v) => v
      case None => default
    }
  }

  /** The outcome of a step that can raise: `Err` stands for an exception
      that propagates to the caller. */
  datatype Result<+T, +E> = Ok(value: T) | Err(error: E)
}
